=== FILE: README.md ===
# NextSound multi-track sharing, modelled in Dafny

This project models the pure core of NextSound's "share several tracks" feature:

- **Share formatter** (`Clipboard`): turns a list of tracks into one shareable text.
  The text has a singular or plural header, then the entries numbered from 1, each
  with placeholder fallbacks and an indented Spotify URL line when there is a URL.
  A blank line separates the header from the list and each entry from the next.
- **Selection controller** (`MultiShare`): the state transitions of the
  `useMultiShare` hook. It selects, deselects, selects all up to a limit, clears,
  and shares the selection. The clipboard outcome is an input. The toasts a
  transition raises are returned as the options it passes to `addToast`.
- **Toast store** (`Toasts`): the process-wide list of active toasts and the list
  of listeners. It covers `addToast` with its defaults, `removeToast`, listener
  notification, and subscribe/unsubscribe. A scheduled auto-dismissal is a
  pending `Timer`, and firing one is an explicit step.

Support modules:

- `Wrappers` holds `Option`, which models `undefined` and `??`.
- `Seqs` holds the order-preserving `Filter`, which models `Array.prototype.filter`.
- `Decimal` renders numbers as JavaScript template strings do.
- `Text` holds `Join` and a line-by-line reading of text (`Lines`, `Stack`).

A track's optional text fields are strings, and `""` stands for a missing or falsy
value, which is how `||` and `if (url)` treat them. Toast ids and listener
identities are parameters. Uniqueness of ids is a hypothesis of the lemmas that need
it, because `addToast` itself does not guarantee it.

Behaviour of the code worth noting:

- `shareSelected` does not check the busy flag itself. The toolbar guards it instead:
  its Share, Select All, Clear All and Cancel buttons are disabled while busy
  (src/components/ui/MultiShareBar.tsx:121-215), and its keyboard shortcut checks
  the flag before sharing (src/components/ui/MultiShareBar.tsx:42-44).
- Removing a toast, unsubscribing and deselecting drop every entry that matches,
  and keep every other entry, duplicates included, in its order.
- A toast title may be empty. `addToast` does not check it.
- `selectAll` over the limit passes the variant `'default'`, which is outside the
  declared `success | error | info`. It is kept as the `Default` variant rather than
  mapped to `info`.
- Dismissing a toast does not cancel its timer. When the timer fires later, it
  removes nothing but notifies the listeners once more (`DismissThenExpire`).
- `maxLimit` is not validated. A negative limit makes `slice(0, maxLimit)` count
  from the end, and `SelectAll` states that case too.

## Model

| member | source | states |
|---|---|---|
| Clipboard.Format | src/utils/clipboard.ts:8-30 | the share text is empty if and only if there are no tracks |
| Clipboard.FormatLines | src/utils/clipboard.ts:8-30 | read line by line (fields without newlines), the text is the header, a blank line, then one block per track in input order with one blank line between blocks |
| Clipboard.EntriesLines | src/utils/clipboard.ts:17-27 | for fields without newlines, joining the entries with "\n\n" reads as the entry blocks stacked with a blank line between each pair |
| Clipboard.Header | src/utils/clipboard.ts:13-15 | the header is the singular sentence exactly for one track, and is a single line |
| Clipboard.HeaderReadsBack | src/utils/clipboard.ts:13-15 | for any count but one, the header is "Check out these " + d + " tracks from NextSound:" where d is a canonical numeral (no leading zero) that reads back as the count |
| Clipboard.HeaderDeterminesCount | src/utils/clipboard.ts:13-15 | different track counts give different headers, so the header embeds the count |
| Clipboard.TrackName | src/utils/clipboard.ts:18 | the displayed title is never empty: the name if present, else the original title if present, else "Unknown Track" |
| Clipboard.ArtistName | src/utils/clipboard.ts:19 | the displayed artist is never empty: the artist if present, else "Unknown Artist" |
| Clipboard.EntryHasUrlLine | src/utils/clipboard.ts:20-26 | for fields without newlines, an entry contains a line break if and only if its track has a Spotify URL |
| Clipboard.EntryLines | src/utils/clipboard.ts:17-26 | the entry at position i (fields without newlines) reads as the line "(i+1). title - artist", followed by the line "   " + URL exactly when a URL is present |
| Clipboard.FormatOneTrackNoUrl | src/utils/clipboard.ts:13-29 | one track without a URL gives the singular header, a blank line and "1. name - artist" |
| Clipboard.FormatThreeTracks | src/utils/clipboard.ts:8-30 | three tracks A, B, C give the plural header naming 3 and entries 1 to 3 separated by blank lines |
| Text.Join | src/utils/clipboard.ts:27 | joining gives "" for no parts and the part itself for one; its length is the parts' total plus one separator between each consecutive pair |
| Text.JoinFirst | src/utils/clipboard.ts:27 | the join opens with the first part, followed by the separator when more parts come |
| Text.JoinPart | src/utils/clipboard.ts:27 | part i sits at offset (length of parts 0..i-1) + i separators, and the separator fills the gap up to part i+1 |
| Text.JoinContents | src/utils/clipboard.ts:27 | every part sits at its offset and exactly the separator lies between consecutive parts, so with the length nothing else is in the result |
| Seqs.Filter | src/hooks/useMultiShare.ts:49 | the result holds exactly the kept elements, is a subsequence of the input (order kept), and is shorter by exactly the number of rejected elements, so duplicates of kept elements survive |
| Seqs.FilterUnique | src/components/ui/use-toast.ts:54 | any subsequence that holds only kept elements and is shorter by exactly the rejected count is the filter's result, so Filter's contract determines it |
| Seqs.MapIndexed | src/utils/clipboard.ts:17 | the mapped list has one element per input, and element i is the callback applied to position first + i and input i |
| Decimal.IntToString | src/hooks/useMultiShare.ts:41 | an integer interpolated into a template string: a leading "-" exactly for a negative value, followed by the magnitude's decimal numeral |
| Decimal.ParseNatToString | src/utils/clipboard.ts:15 | the numeral interpolated for a count reads back as that count |
| Decimal.NatToStringInjective | src/utils/clipboard.ts:15 | distinct counts render as distinct numerals |
| Toasts.Initial | src/components/ui/use-toast.ts:21-22 | the store starts with no toasts, no listeners, no timers and no deliveries |
| Toasts.Broadcast | src/components/ui/use-toast.ts:24-26 | one delivery per registered listener, in registration order, each carrying the same snapshot (listeners do not call back into the store) |
| Toasts.NotifyListeners | src/components/ui/use-toast.ts:24-26 | each registered listener, in order, receives one snapshot equal to the full current list; nothing else changes |
| Toasts.BroadcastSkips | src/components/ui/use-toast.ts:24-26 | a notification reaches only listeners that are registered at that moment |
| Toasts.MakeToast | src/components/ui/use-toast.ts:30-38 | the toast carries the given id, title and description; duration defaults to 3000 and variant to info |
| Toasts.AddToast | src/components/ui/use-toast.ts:28-51 | appends exactly one toast at the end and keeps the others in order; notifies every listener with the new list; schedules a removal of that id iff the duration is positive; returns the id |
| Toasts.RemoveToast | src/components/ui/use-toast.ts:53-56 | afterwards no toast has the id; the result is a subsequence of the list holding exactly the toasts with other ids and shorter by exactly the number carrying the id (duplicates kept, order kept); every listener receives the new list |
| Toasts.RemoveAbsent | src/components/ui/use-toast.ts:54 | removing an id that no toast has leaves the list unchanged |
| Toasts.RemoveIdempotent | src/components/ui/use-toast.ts:54 | removing an id twice leaves the same list as removing it once |
| Toasts.RemoveOne | src/components/ui/use-toast.ts:54 | with unique ids, removing a toast's id drops exactly that toast and keeps the rest in order |
| Toasts.RemoveCount | src/components/ui/use-toast.ts:53-56 | with unique ids, the list shrinks by one iff the id was active, and ids stay unique |
| Toasts.AddKeepsIdsUnique | src/components/ui/use-toast.ts:28-41 | adding under an id that is not active keeps ids unique and makes the id active |
| Toasts.AddThenRemove | src/components/ui/use-toast.ts:40-54 | adding under a fresh id and then removing that id restores the list |
| Toasts.FireTimer | src/components/ui/use-toast.ts:44-48 | a firing timer is dropped from the pending list and its id removed as removeToast removes it: other toasts stay in order, listeners are unchanged and each receives the new list |
| Toasts.DismissThenExpire | src/components/ui/use-toast.ts:44-56 | a timer that fires after its toast was dismissed leaves the list unchanged, yet every listener is handed that list once more |
| Toasts.Subscribe | src/components/ui/use-toast.ts:62-63 | subscribing appends the listener and changes nothing else |
| Toasts.Unsubscribe | src/components/ui/use-toast.ts:64-66 | unsubscribing leaves a subsequence of the listeners holding exactly the other listeners, shorter by exactly the registrations of the removed one, and changes nothing else |
| Toasts.UnsubscribeDuplicates | src/components/ui/use-toast.ts:65 | from registrations [m, l, l, m], unsubscribing m leaves [l, l] |
| Toasts.UnsubscribeIdempotent | src/components/ui/use-toast.ts:64-66 | calling unsubscribe a second time changes nothing |
| Toasts.UnsubscribeKeepsOthers | src/components/ui/use-toast.ts:64-66 | unsubscribing removes that listener and keeps the other listeners in order |
| Toasts.SubscribeThenUnsubscribe | src/components/ui/use-toast.ts:62-66 | subscribing a new listener and then unsubscribing it restores the store |
| Toasts.AddAll | src/components/ui/use-toast.ts:28-51 | successive addToast calls append one toast per option, in order, built from the matching id, keep the earlier toasts, and keep the listeners |
| Toasts.AddAllTimers | src/components/ui/use-toast.ts:44-48 | successive adds keep the earlier timers and schedule at most one per toast, each with a positive delay and one of the given ids |
| Toasts.AddAllLog | src/components/ui/use-toast.ts:41 | successive adds keep the earlier deliveries and add exactly one per listener per toast, only to registered listeners |
| Toasts.Apply | src/components/ui/use-toast.ts:24-56 | an add, a remove or a timer firing keeps the listeners, only appends to the log, and delivers only to registered listeners |
| Toasts.Run | src/components/ui/use-toast.ts:24-56 | any sequence of adds, removes and timer firings keeps the listeners, only appends to the log, and delivers only to registered listeners |
| Toasts.UnsubscribedHearsNothing | src/components/ui/use-toast.ts:24-66 | after unsubscribing, a listener receives no delivery from the next add or remove, nor from any later run of adds, removes and timer firings |
| MultiShare.Init | src/hooks/useMultiShare.ts:22-32 | the hook starts with nothing selected and not busy; the limit is the option given, else 10 |
| MultiShare.IsTrackSelected | src/hooks/useMultiShare.ts:129-131 | true if and only if some selected track has the id |
| MultiShare.HasReachedLimit | src/hooks/useMultiShare.ts:133 | the limit is reached exactly when one more track would exceed it; not reached implies within the limit; reached within the limit means exactly at it |
| MultiShare.HasId | src/hooks/useMultiShare.ts:130 | true if and only if some track in the list has the id |
| MultiShare.SelectTrack | src/hooks/useMultiShare.ts:34-51 | at or over the limit: selection unchanged and one error toast; below it: the track appended, the earlier tracks unchanged, no toast; deselect: a subsequence of the selection holding exactly the tracks with other ids, shorter by exactly the number with the id, no toast |
| MultiShare.SliceEnd | src/hooks/useMultiShare.ts:54 | a non-negative end keeps the first min(end, len) elements; a negative end drops the last -end elements, or all of them when -end exceeds the length |
| MultiShare.SelectAll | src/hooks/useMultiShare.ts:53-70 | the selection becomes a prefix of the list, min(n, limit) long for a non-negative limit (JS slice semantics otherwise); exactly one toast: success iff everything fitted, else the 'default' variant |
| MultiShare.ClearSelection | src/hooks/useMultiShare.ts:125-127 | the selection becomes empty; the busy flag and the limit are kept |
| MultiShare.ShareSelected | src/hooks/useMultiShare.ts:72-123 | empty selection: no-op; otherwise busy while the formatted text is copied; success clears the selection and raises one success toast counting the tracks; failure keeps the selection and raises one error toast; not busy afterwards; "No content to share" is never raised |
| MultiShare.ShareRetry | src/hooks/useMultiShare.ts:106-112 | after a failed copy the selection is kept, so sharing again hands the clipboard the same text |
| MultiShare.LimitGate | src/hooks/useMultiShare.ts:38-45 | selecting is refused with the limit toast if and only if the limit is reached (the hasReachedLimit flag at line 133) |
| MultiShare.SelectionMembership | src/hooks/useMultiShare.ts:46-49 | a track just selected below the limit is reported selected; a track just deselected is not |
| MultiShare.DeselectIdempotent | src/hooks/useMultiShare.ts:49 | deselecting an unselected id is a no-op, and deselecting twice equals deselecting once |
| MultiShare.DeselectDuplicates | src/hooks/useMultiShare.ts:49 | deselecting b from [b, a, a, b] leaves [a, a] |
| MultiShare.DeselectKeepsOthers | src/hooks/useMultiShare.ts:49 | deselecting the one track with an id removes just it and keeps the others in order |
| MultiShare.LimitPreserved | src/hooks/useMultiShare.ts:38-55 | a selection within its limit stays within it through select, deselect, select-all, clear and share |
| MultiShare.CopiedMessage | src/hooks/useMultiShare.ts:97-102 | the success message is "1 track copied to clipboard" for one track and "n tracks copied to clipboard" for any other count n |
| MultiShare.LimitRejectionNotifies | src/hooks/useMultiShare.ts:38-45 | published to the store, a refused selection adds one error toast titled "Selection limit reached" with the default 3000 ms duration, and the selection is unchanged |

## Left out

- `copyToClipboard` (src/utils/clipboard.ts:37-70) is browser clipboard and DOM I/O. Its result is the `copySucceeds` input of `ShareSelected`.
- Id generation with `Math.random` (src/components/ui/use-toast.ts:29) is replaced by an `id` parameter. The source does not guarantee uniqueness, so freshness is a lemma hypothesis, not a precondition.
- Elapsed time is not modelled. Timers are a pending list, and `FireTimer` may fire any pending timer, in any order. In a `Run`, a `Fire` step naming no pending timer changes nothing.
- React mechanics are left out: `useState`/`useCallback` closures, stale captured state in `shareSelected`, and the mount-time subscription in `useToast`. The state is explicit instead.
- The `catch` branch of `shareSelected` (src/hooks/useMultiShare.ts:113-119) is not modelled. With string fields, neither the formatter nor `copyToClipboard` can throw.
- Console logging, and the rendering files (`MultiShareBar.tsx`, `toast.tsx`, `Toaster.tsx`), are left out. They hold rendering, CSS, animation and keyboard wiring.
- Track fields of non-string type are not modelled. Neither is any falsy value other than a missing or empty string.
- `maxLimit` and durations are integers. Fractional values, `NaN` and `Infinity` are not modelled.
- Toasts.Broadcast: listeners are inert. A listener that adds, removes, subscribes or unsubscribes while it is being notified is not modelled. In the source, later listeners in that same broadcast would get a fresh copy of the list, and a listener unsubscribed mid-broadcast is still called. The one listener the store registers, the state setter, does none of this.
- Decimal.IntToString: does not model JavaScript's exponent notation for magnitudes of 10^21 and above.
- MultiShare.SelectAll: states the selection's length and the toast variants, not the exact description texts, which its body spells out.

=== FILE: clipboard.dfy ===
/** The share formatter: a list of tracks rendered as one shareable text. */
module Clipboard {
  import opened Decimal
  import opened Text
  import opened Seqs

  /**
   * A track as the formatter reads it. Every optional text field is a string in
   * which `""` stands for a missing or otherwise falsy value, as `||` treats it.
   */
  datatype Track = Track(id: int, name: string, originalTitle: string, artist: string, spotifyUrl: string)

  const SingleHeader: string := "Check out this track from NextSound:"
  const UnknownTrack: string := "Unknown Track"
  const UnknownArtist: string := "Unknown Artist"
  /** What separates the header from the list and one entry from the next: a blank line. */
  const Separator: string := "\n\n"
  /** What introduces the URL line of an entry. */
  const UrlIndent: string := "\n   "

  /** The header for `n` tracks: singular for exactly one, otherwise naming the count. */
  function Header(n: nat): (h: string)
    ensures n == 1 <==> h == SingleHeader
    ensures NoNewline(h)
  {
    if n == 1 then SingleHeader
    else "Check out these " + NatToString(n) + " tracks from NextSound:"
  }

  /** The displayed title: the name, else the original title, else a placeholder. */
  function TrackName(t: Track): (r: string)
    ensures r != ""
    ensures r in {t.name, t.originalTitle, UnknownTrack}
    ensures t.name != "" ==> r == t.name
    ensures t.name == "" && t.originalTitle != "" ==> r == t.originalTitle
  {
    if t.name != "" then t.name
    else if t.originalTitle != "" then t.originalTitle
    else UnknownTrack
  }

  /** The displayed artist: the artist, else a placeholder. */
  function ArtistName(t: Track): (r: string)
    ensures r != ""
    ensures r in {t.artist, UnknownArtist}
    ensures t.artist != "" ==> r == t.artist
  {
    if t.artist != "" then t.artist else UnknownArtist
  }

  /** The numbered first line of the entry at 0-based position `i`. */
  function EntryLine(i: nat, t: Track): string
  {
    NatToString(i + 1) + ". " + TrackName(t) + " - " + ArtistName(t)
  }

  /** The entry at 0-based position `i`: its numbered line, then an indented URL line when a URL is present. */
  function Entry(i: nat, t: Track): string
  {
    if t.spotifyUrl != "" then EntryLine(i, t) + UrlIndent + t.spotifyUrl
    else EntryLine(i, t)
  }

  /** The entries of `ts`, the first one at position `first`. */
  function Entries(ts: seq<Track>, first: nat): seq<string>
  {
    MapIndexed(ts, first, Entry)
  }

  /**
   * The share text: empty for no tracks, otherwise the header, a blank line, and the
   * entries with a blank line between consecutive ones.
   */
  function Format(ts: seq<Track>): (r: string)
    ensures r == "" <==> |ts| == 0
  {
    if |ts| == 0 then ""
    else Header(|ts|) + Separator + Join(Entries(ts, 0), Separator)
  }

  // ---------------------------------------------------------------------------
  // The share text read line by line.

  /** No field the formatter copies into the text contains a newline of its own. */
  predicate SingleLineFields(t: Track)
  {
    NoNewline(t.name) && NoNewline(t.originalTitle) && NoNewline(t.artist) && NoNewline(t.spotifyUrl)
  }

  predicate AllSingleLine(ts: seq<Track>)
  {
    forall i :: 0 <= i < |ts| ==> SingleLineFields(ts[i])
  }

  /** The lines one entry occupies: its numbered line, then `"   " + url` when a URL is present. */
  function EntryBlock(i: nat, t: Track): seq<string>
  {
    [EntryLine(i, t)] + (if t.spotifyUrl != "" then ["   " + t.spotifyUrl] else [])
  }

  function Blocks(ts: seq<Track>, first: nat): seq<seq<string>>
  {
    MapIndexed(ts, first, EntryBlock)
  }

  lemma EntryLineSingle(i: nat, t: Track)
    requires SingleLineFields(t)
    ensures NoNewline(EntryLine(i, t))
  {
  }

  /** An entry spans one line, or two exactly when the track has a URL. */
  lemma EntryLines(i: nat, t: Track)
    requires SingleLineFields(t)
    ensures Lines(Entry(i, t)) == EntryBlock(i, t)
  {
    var line := EntryLine(i, t);
    EntryLineSingle(i, t);
    LinesOfLine(line);
    if t.spotifyUrl != "" {
      var url := "   " + t.spotifyUrl;
      assert Entry(i, t) == line + "\n" + url;
      LinesConcat(line, url);
      LinesOfLine(url);
    }
  }

  /** An entry contains a line break if and only if its track has a URL. */
  lemma EntryHasUrlLine(i: nat, t: Track)
    requires SingleLineFields(t)
    ensures '\n' in Entry(i, t) <==> t.spotifyUrl != ""
  {
  }

  lemma {:induction false} EntriesLines(ts: seq<Track>, first: nat)
    requires |ts| >= 1
    requires AllSingleLine(ts)
    ensures Lines(Join(Entries(ts, first), Separator)) == Stack(Blocks(ts, first))
  {
    var es := Entries(ts, first);
    var bs := Blocks(ts, first);
    EntryLines(first, ts[0]);
    assert Lines(es[0]) == bs[0];
    if |ts| > 1 {
      var rest := Entries(ts[1..], first + 1);
      assert es[1..] == rest;
      assert bs[1..] == Blocks(ts[1..], first + 1);
      assert Join(es, Separator) == es[0] + "\n\n" + Join(rest, Separator);
      BlankLineBetween(es[0], Join(rest, Separator));
      EntriesLines(ts[1..], first + 1);
      assert Stack(bs) == bs[0] + [""] + Stack(bs[1..]);
    }
  }

  /**
   * Read line by line, the share text for a non-empty list is the header, a blank
   * line, then one block per track in input order, numbered from 1, with a blank
   * line between consecutive blocks.
   */
  lemma FormatLines(ts: seq<Track>)
    requires |ts| >= 1
    requires AllSingleLine(ts)
    ensures Lines(Format(ts)) == [Header(|ts|)] + [""] + Stack(Blocks(ts, 0))
  {
    var h := Header(|ts|);
    var list := Join(Entries(ts, 0), Separator);
    assert Format(ts) == h + "\n\n" + list;
    BlankLineBetween(h, list);
    LinesOfLine(h);
    EntriesLines(ts, 0);

  }

  /** The header determines the number of tracks it announces. */
  lemma HeaderDeterminesCount(m: nat, n: nat)
    requires Header(m) == Header(n)
    ensures m == n
  {
    var prefix := "Check out these ";
    var suffix := " tracks from NextSound:";
    if m != 1 && n != 1 {
      var hm := Header(m);
      assert hm == prefix + NatToString(m) + suffix;
      assert Header(n) == prefix + NatToString(n) + suffix;
      assert |NatToString(m)| == |NatToString(n)|;
      assert hm[|prefix|..|prefix| + |NatToString(m)|] == NatToString(m);
      assert Header(n)[|prefix|..|prefix| + |NatToString(n)|] == NatToString(n);
      NatToStringInjective(m, n);
    }
  }

  /** A header for any count but one reads back, as a decimal numeral, the count it announces. */
  lemma HeaderReadsBack(n: nat)
    requires n != 1
    ensures exists d :: && AllDigits(d) && (|d| > 1 ==> d[0] != '0') && ParseNat(d) == n
                        && Header(n) == "Check out these " + d + " tracks from NextSound:"
  {
    ParseNatToString(n);
  }

  /** A single track without a URL: the singular header and one numbered line. */
  lemma FormatOneTrackNoUrl(t: Track)
    requires t.name != "" && t.artist != "" && t.spotifyUrl == ""
    ensures Format([t]) == "Check out this track from NextSound:\n\n1. " + t.name + " - " + t.artist
  {
  }

  function ExampleTracks(): seq<Track>
  {
    [Track(1, "A", "", "X", ""), Track(2, "B", "", "Y", ""), Track(3, "C", "", "Z", "")]
  }

  lemma ExampleEntries()
    ensures Entries(ExampleTracks(), 0) == ["1. A - X", "2. B - Y", "3. C - Z"]
  {
    var ts := ExampleTracks();
    assert NatToString(1) == "1" && NatToString(2) == "2" && NatToString(3) == "3";
    assert Entry(0, ts[0]) == "1. A - X";
    assert Entry(1, ts[1]) == "2. B - Y";
    assert Entry(2, ts[2]) == "3. C - Z";
  }

  lemma ExampleJoin()
    ensures Join(Entries(ExampleTracks(), 0), Separator) == "1. A - X" + "\n\n" + "2. B - Y" + "\n\n" + "3. C - Z"
  {
    ExampleEntries();
    var es: seq<string> := ["1. A - X", "2. B - Y", "3. C - Z"];
    assert es[1..][1..] == ["3. C - Z"];
  }

  /**
   * Three tracks without URLs: the plural header names the count, and the entries
   * are numbered 1 to 3 in input order, separated by blank lines.
   */
  lemma FormatThreeTracks()
    ensures Format(ExampleTracks())
         == "Check out these " + "3" + " tracks from NextSound:" + "\n\n"
          + "1. A - X" + "\n\n" + "2. B - Y" + "\n\n" + "3. C - Z"
  {
    var ts := ExampleTracks();
    assert |ts| == 3;
    assert NatToString(3) == "3";
    ExampleJoin();
  }
}

=== FILE: decimal.dfy ===
/** Decimal rendering of integers, the model of a number interpolated into a template string. */
module Decimal {

  predicate IsDigit(c: char)
  {
    '0' <= c <= '9'
  }

  predicate AllDigits(s: string)
  {
    forall i :: 0 <= i < |s| ==> IsDigit(s[i])
  }

  function DigitChar(d: nat): (c: char)
    requires d < 10
    ensures IsDigit(c)
  {
    ('0' as int + d) as char
  }

  function DigitValue(c: char): (d: nat)
    requires IsDigit(c)
    ensures d < 10
  {
    c as int - '0' as int
  }

  /** The canonical decimal numeral of `n`: digits only, no leading zero. */
  function NatToString(n: nat): (s: string)
    ensures |s| >= 1
    ensures AllDigits(s)
    ensures |s| > 1 ==> s[0] != '0'
    ensures n < 10 <==> |s| == 1
  {
    if n < 10 then [DigitChar(n)]
    else NatToString(n / 10) + [DigitChar(n % 10)]
  }

  /** The value of a numeral: the reference reading of `NatToString`. */
  function ParseNat(s: string): nat
    requires AllDigits(s)
  {
    if |s| == 0 then 0
    else ParseNat(s[..|s| - 1]) * 10 + DigitValue(s[|s| - 1])
  }

  /** Rendering then reading a number gives the number back. */
  lemma {:induction false} ParseNatToString(n: nat)
    ensures ParseNat(NatToString(n)) == n
  {
    var s := NatToString(n);
    if n >= 10 {
      ParseNatToString(n / 10);
      assert s[..|s| - 1] == NatToString(n / 10);
      assert DigitValue(s[|s| - 1]) == n % 10;
    } else {
      assert s[..0] == [];
    }
  }

  /** Distinct numbers render as distinct numerals. */
  lemma NatToStringInjective(m: nat, n: nat)
    requires NatToString(m) == NatToString(n)
    ensures m == n
  {
    ParseNatToString(m);
    ParseNatToString(n);
  }

  /** JavaScript's rendering of an integer: a minus sign before the magnitude when negative. */
  function IntToString(i: int): (s: string)
    ensures |s| >= 1
    ensures s[0] == '-' <==> i < 0
    ensures i < 0 ==> s[1..] == NatToString(-i)
    ensures i >= 0 ==> s == NatToString(i)
  {
    if i < 0 then "-" + NatToString(-i) else NatToString(i)
  }
}

=== FILE: multishare.dfy ===
/**
 * The selection controller: which tracks are selected for sharing, the limit on
 * how many, and the share action that formats the selection, hands it to the
 * clipboard and reports the outcome as toasts. Each transition is a pure function
 * of the state; the toasts it would raise are returned as the options it would pass
 * to the toast store, in the order it would pass them.
 */
module MultiShare {
  import opened Wrappers
  import opened Seqs
  import opened Decimal
  import opened Clipboard
  import opened Toasts

  /** The limit used when the caller configures none. */
  const DefaultMaxLimit: int := 10

  /** The hook's state: the selected tracks in selection order, the busy flag, and the configured limit. */
  datatype Selection = Selection(selected: seq<Track>, isLoading: bool, maxLimit: int)

  /** A transition's result: the new state and the toasts it raises. */
  datatype Step = Step(state: Selection, toasts: seq<ToastOptions>)

  /**
   * A share's result: the state while the clipboard write is awaited, the state
   * afterwards, the text handed to the clipboard (if any), and the toasts raised.
   */
  datatype Share = Share(pending: Selection, final: Selection, clipboardText: Option<string>, toasts: seq<ToastOptions>)

  function LimitReachedToast(maxLimit: int): ToastOptions
  {
    ToastOptions("Selection limit reached",
                 Some("You can only select up to " + IntToString(maxLimit) + " tracks at once"),
                 Some(Error), None)
  }

  function LimitAppliedToast(maxLimit: int): ToastOptions
  {
    ToastOptions("Selection limit applied",
                 Some("Selected first " + IntToString(maxLimit) + " tracks (limit reached)"),
                 Some(Default), None)
  }

  function AllSelectedToast(count: nat): ToastOptions
  {
    ToastOptions("All tracks selected", Some(NatToString(count) + " tracks selected"), Some(Success), None)
  }

  function NoContentToast(): ToastOptions
  {
    ToastOptions("No content to share", Some("Please select tracks with valid information"), Some(Error), None)
  }

  /** The description of a successful share of `count` tracks. */
  function CopiedDescription(count: nat): string
  {
    NatToString(count) + " " + (if count == 1 then "track" else "tracks") + " copied to clipboard"
  }

  function CopiedToast(count: nat): ToastOptions
  {
    ToastOptions("Links copied!", Some(CopiedDescription(count)), Some(Success), None)
  }

  function CopyFailedToast(): ToastOptions
  {
    ToastOptions("Failed to copy", Some("Please try again"), Some(Error), None)
  }

  /** The fresh state of the hook: nothing selected, not busy, the given limit or the default. */
  function Init(maxSelectionLimit: Option<int>): (s: Selection)
    ensures s.selected == [] && !s.isLoading
    ensures maxSelectionLimit.None? ==> s.maxLimit == 10
    ensures maxSelectionLimit.Some? ==> s.maxLimit == maxSelectionLimit.value
  {
    Selection([], false, maxSelectionLimit.GetOr(DefaultMaxLimit))
  }

  /** The selection is no longer than the limit. */
  predicate WithinLimit(s: Selection)
  {
    |s.selected| <= s.maxLimit
  }

  /** Whether some track in `ts` has the given id. */
  function HasId(ts: seq<Track>, id: int): (b: bool)
    ensures b <==> exists i :: 0 <= i < |ts| && ts[i].id == id
  {
    if |ts| == 0 then false
    else ts[0].id == id || HasId(ts[1..], id)
  }

  /** Whether a track with the given id is selected. */
  function IsTrackSelected(s: Selection, id: int): (b: bool)
    ensures b <==> exists t :: t in s.selected && t.id == id
  {
    HasId(s.selected, id)
  }

  /**
   * Whether the selection is full, read as the toolbar reads it: one more track would
   * exceed the limit, and a selection within the limit that is full sits exactly at it.
   */
  function HasReachedLimit(s: Selection): (b: bool)
    ensures b <==> |s.selected| + 1 > s.maxLimit
    ensures !b ==> WithinLimit(s)
    ensures b && WithinLimit(s) ==> |s.selected| == s.maxLimit
  {
    |s.selected| >= s.maxLimit
  }

  function KeepOtherTracks(id: int): Track -> bool
  {
    (u: Track) => u.id != id
  }

  /**
   * Selecting appends the track unless the selection is already at the limit, in
   * which case it raises one error toast and changes nothing. Deselecting drops every
   * selected track with the same id and keeps the others, duplicates included, in
   * their order. Neither touches the busy flag or the limit.
   */
  function SelectTrack(s: Selection, t: Track, selected: bool): (r: Step)
    ensures r.state.isLoading == s.isLoading && r.state.maxLimit == s.maxLimit
    ensures selected && |s.selected| >= s.maxLimit ==>
              r.state == s && |r.toasts| == 1 && r.toasts[0].variant == Some(Error)
    ensures selected && |s.selected| < s.maxLimit ==>
              && |r.state.selected| == |s.selected| + 1
              && r.state.selected[..|s.selected|] == s.selected
              && r.state.selected[|s.selected|] == t
              && r.toasts == []
    ensures !selected ==>
              && (forall u :: u in r.state.selected <==> u in s.selected && u.id != t.id)
              && IsSubsequence(r.state.selected, s.selected)
              && |r.state.selected| == |s.selected| - Rejected(s.selected, KeepOtherTracks(t.id))
              && r.toasts == []
  {
    if selected then
      if |s.selected| >= s.maxLimit then Step(s, [LimitReachedToast(s.maxLimit)])
      else Step(s.(selected := s.selected + [t]), [])
    else Step(s.(selected := Filter(s.selected, KeepOtherTracks(t.id))), [])
  }

  /**
   * JavaScript's reading of the end argument of `slice(0, end)` on a sequence of
   * length `len` (section 23.1.3.28 of ECMAScript 2024): a non-negative end keeps at
   * most `end` elements, a negative one drops the last `-end`, or all of them.
   */
  function SliceEnd(len: nat, end: int): (k: nat)
    ensures k <= len
    ensures 0 <= end ==> k == len || k == end
    ensures 0 <= end ==> k <= end
    ensures end < 0 ==> len - k == -end || k == 0
    ensures end < 0 ==> len - k <= -end
  {
    if end < 0 then (if len + end < 0 then 0 else len + end)
    else if end > len then len
    else end
  }

  /**
   * Selecting all replaces the selection by a prefix of `ts`: with a non-negative
   * limit, the first `min(|ts|, maxLimit)` tracks. It raises exactly one toast, a
   * success when everything fitted and otherwise the unlisted `'default'` variant.
   */
  function SelectAll(s: Selection, ts: seq<Track>): (r: Step)
    ensures r.state.isLoading == s.isLoading && r.state.maxLimit == s.maxLimit
    ensures r.state.selected <= ts
    ensures 0 <= s.maxLimit ==> |r.state.selected| == (if |ts| <= s.maxLimit then |ts| else s.maxLimit)
    ensures s.maxLimit < 0 ==> |r.state.selected| == (if |ts| + s.maxLimit < 0 then 0 else |ts| + s.maxLimit)
    ensures |r.toasts| == 1
    ensures r.toasts[0].variant == Some(Success) <==> |ts| <= s.maxLimit
    ensures r.toasts[0].variant == Some(Default) <==> |ts| > s.maxLimit
  {
    var chosen := ts[..SliceEnd(|ts|, s.maxLimit)];
    if |ts| > s.maxLimit then Step(s.(selected := chosen), [LimitAppliedToast(s.maxLimit)])
    else Step(s.(selected := chosen), [AllSelectedToast(|ts|)])
  }

  /** Clearing empties the selection and keeps the busy flag and the limit. */
  function ClearSelection(s: Selection): (r: Selection)
    ensures r.selected == [] && r.isLoading == s.isLoading && r.maxLimit == s.maxLimit
  {
    s.(selected := [])
  }

  /**
   * Shares the selection, given whether the clipboard write will succeed. An empty
   * selection does nothing. Otherwise the busy flag is set while the formatted text
   * is written; on success the selection is cleared and one success toast counts the
   * tracks, on failure the selection is kept and one error toast raised; either way
   * the flag ends cleared.
   */
  function ShareSelected(s: Selection, copySucceeds: bool): (r: Share)
    ensures r.final.maxLimit == s.maxLimit
    ensures |s.selected| == 0 ==> r.pending == s && r.final == s && r.clipboardText == None && r.toasts == []
    ensures |s.selected| > 0 ==>
              && r.pending == s.(isLoading := true)
              && r.clipboardText == Some(Format(s.selected))
              && !r.final.isLoading
              && |r.toasts| == 1
    ensures |s.selected| > 0 && copySucceeds ==>
              r.final.selected == [] && r.toasts[0] == CopiedToast(|s.selected|)
    ensures |s.selected| > 0 && !copySucceeds ==>
              r.final.selected == s.selected && r.toasts[0].variant == Some(Error)
    ensures NoContentToast() !in r.toasts
  {
    if |s.selected| == 0 then Share(s, s, None, [])
    else
      var busy := s.(isLoading := true);
      var text := Format(s.selected);
      if text == "" then Share(busy, busy.(isLoading := false), None, [NoContentToast()])
      else if copySucceeds then Share(busy, Selection([], false, s.maxLimit), Some(text), [CopiedToast(|s.selected|)])
      else Share(busy, busy.(isLoading := false), Some(text), [CopyFailedToast()])
  }

  // ---------------------------------------------------------------------------
  // Laws of the controller.

  /** Selecting is refused exactly when the toolbar reports the limit as reached. */
  lemma LimitGate(s: Selection, t: Track)
    ensures HasReachedLimit(s) <==> SelectTrack(s, t, true).state == s
    ensures HasReachedLimit(s) <==> SelectTrack(s, t, true).toasts == [LimitReachedToast(s.maxLimit)]
  {
  }

  /** A track just selected is reported selected; a track just deselected is not. */
  lemma SelectionMembership(s: Selection, t: Track)
    ensures !HasReachedLimit(s) ==> IsTrackSelected(SelectTrack(s, t, true).state, t.id)
    ensures !IsTrackSelected(SelectTrack(s, t, false).state, t.id)
  {
  }

  /** Deselecting a track whose id is not selected changes nothing; deselecting twice is deselecting once. */
  lemma DeselectIdempotent(s: Selection, t: Track)
    ensures !IsTrackSelected(s, t.id) ==> SelectTrack(s, t, false).state == s
    ensures SelectTrack(SelectTrack(s, t, false).state, t, false) == SelectTrack(s, t, false)
  {
    if !IsTrackSelected(s, t.id) {
      FilterKeepsAll(s.selected, KeepOtherTracks(t.id));
    }
    FilterIdempotent(s.selected, KeepOtherTracks(t.id));
  }

  /** Deselecting the one selected track with an id removes just it and keeps the others in order. */
  lemma DeselectKeepsOthers(s: Selection, a: seq<Track>, t: Track, b: seq<Track>)
    requires s.selected == a + [t] + b
    requires forall u :: u in a + b ==> u.id != t.id
    ensures SelectTrack(s, t, false).state.selected == a + b
  {
    FilterDropsOne(a, t, b, KeepOtherTracks(t.id));
  }

  /** Deselecting drops every copy of the track's id and keeps the other copies. */
  lemma DeselectDuplicates(a: Track, b: Track, limit: int)
    requires a.id != b.id
    ensures SelectTrack(Selection([b, a, a, b], false, limit), b, false).state.selected == [a, a]
  {
    var keep := KeepOtherTracks(b.id);
    assert Filter([b], keep) == [] by { assert [b][1..] == []; }
    assert Filter([a, b], keep) == [a] by { assert [a, b][1..] == [b]; }
    assert Filter([a, a, b], keep) == [a, a] by { assert [a, a, b][1..] == [a, b]; }
    assert [b, a, a, b][1..] == [a, a, b];
  }

  /** A selection within its limit stays within it through every transition. */
  lemma LimitPreserved(s: Selection, t: Track, selected: bool, ts: seq<Track>, copySucceeds: bool)
    requires WithinLimit(s)
    ensures WithinLimit(SelectTrack(s, t, selected).state)
    ensures WithinLimit(SelectAll(s, ts).state)
    ensures WithinLimit(ClearSelection(s))
    ensures WithinLimit(ShareSelected(s, copySucceeds).final)
  {
  }

  /** The success message names the count, with the singular word exactly for one track. */
  lemma CopiedMessage(count: nat)
    ensures NatToString(count) + " track" <= CopiedDescription(count)
    ensures CopiedDescription(count) == NatToString(count) + " track copied to clipboard" <==> count == 1
    ensures count != 1 ==> CopiedDescription(count) == NatToString(count) + " tracks copied to clipboard"
  {
    var n := NatToString(count);
    var d := CopiedDescription(count);
    if count == 1 {
      assert d == n + " track copied to clipboard";
    } else {
      assert d == n + " tracks copied to clipboard";
      assert d[|n| + 6] == 's' && (n + " track copied to clipboard")[|n| + 6] == ' ';
    }
  }

  /**
   * Published to the toast store, a refused selection adds one error toast with the
   * limit message and the default display time, and the selection is unchanged.
   */
  lemma LimitRejectionNotifies(s: Selection, t: Track, store: Store, id: string)
    requires HasReachedLimit(s)
    ensures var r := SelectTrack(s, t, true);
            var published := AddAll(store, [id], r.toasts);
            && r.state == s
            && |published.toasts| == |store.toasts| + 1
            && published.toasts[|store.toasts|].id == id
            && published.toasts[|store.toasts|].variant == Error
            && published.toasts[|store.toasts|].title == "Selection limit reached"
            && published.toasts[|store.toasts|].duration == DefaultDuration
  {
  }

  /** A failed share keeps the selection, so a retry copies the same text again. */
  lemma ShareRetry(s: Selection, retrySucceeds: bool)
    requires |s.selected| > 0
    ensures var failed := ShareSelected(s, false);
            ShareSelected(failed.final, retrySucceeds).clipboardText == failed.clipboardText
  {
  }
}

=== FILE: seqs.dfy ===
/** Order-preserving filtering of sequences, the model of `Array.prototype.filter`. */
module Seqs {

  /** `r` is `s` with some elements deleted: the remaining ones in their original order. */
  ghost predicate IsSubsequence<T>(r: seq<T>, s: seq<T>)
    decreases |s|
  {
    || |r| == 0
    || (|s| > 0 && ((r[0] == s[0] && IsSubsequence(r[1..], s[1..])) || IsSubsequence(r, s[1..])))
  }

  /** The number of elements of `s` that `keep` rejects. */
  function Rejected<T>(s: seq<T>, keep: T -> bool): (n: nat)
    ensures n <= |s|
  {
    if |s| == 0 then 0
    else (if keep(s[0]) then 0 else 1) + Rejected(s[1..], keep)
  }

  /**
   * The elements of `s` that satisfy `keep`: a subsequence of `s` holding only kept
   * elements, and every one of them (`FilterUnique` shows these three facts pin it down).
   */
  function Filter<T(!new)>(s: seq<T>, keep: T -> bool): (r: seq<T>)
    ensures forall x :: x in r <==> x in s && keep(x)
    ensures IsSubsequence(r, s)
    ensures |r| == |s| - Rejected(s, keep)
  {
    if |s| == 0 then []
    else
      var rest := Filter(s[1..], keep);
      if keep(s[0]) then
        assert ([s[0]] + rest)[1..] == rest;
        [s[0]] + rest
      else rest
  }

  /** A subsequence holding only kept elements is no longer than the number of kept elements. */
  lemma {:induction false} KeptSubsequenceBound<T(!new)>(r: seq<T>, s: seq<T>, keep: T -> bool)
    requires forall x :: x in r ==> keep(x)
    requires IsSubsequence(r, s)
    ensures |r| <= |s| - Rejected(s, keep)
    decreases |s|
  {
    if |r| > 0 {
      assert forall x :: x in r[1..] ==> x in r;
      if r[0] == s[0] && IsSubsequence(r[1..], s[1..]) {
        assert keep(r[0]);
        KeptSubsequenceBound(r[1..], s[1..], keep);
      } else {
        KeptSubsequenceBound(r, s[1..], keep);
      }
    }
  }

  /** `Filter` is the only subsequence holding exactly the kept elements, all of them. */
  lemma {:induction false} FilterUnique<T(!new)>(r: seq<T>, s: seq<T>, keep: T -> bool)
    requires forall x :: x in r ==> keep(x)
    requires IsSubsequence(r, s)
    requires |r| == |s| - Rejected(s, keep)
    ensures r == Filter(s, keep)
    decreases |s|
  {
    if |s| > 0 {
      if keep(s[0]) {
        if r[0] == s[0] && IsSubsequence(r[1..], s[1..]) {
          assert forall x :: x in r[1..] ==> x in r;
          FilterUnique(r[1..], s[1..], keep);
          assert r == [r[0]] + r[1..];
        } else {
          KeptSubsequenceBound(r, s[1..], keep);
          assert false;
        }
      } else if |r| == 0 {
        assert |Filter(s[1..], keep)| == 0;
      } else {
        assert keep(r[0]);
        FilterUnique(r, s[1..], keep);
      }
    }
  }

  /** Filtering distributes over concatenation: the relative order of kept elements is unchanged. */
  lemma {:induction false} FilterConcat<T(!new)>(a: seq<T>, b: seq<T>, keep: T -> bool)
    ensures Filter(a + b, keep) == Filter(a, keep) + Filter(b, keep)
  {
    if |a| == 0 {
      assert a + b == b;
    } else {
      assert (a + b)[1..] == a[1..] + b;
      FilterConcat(a[1..], b, keep);
    }
  }

  /** A filter that keeps every element is the identity. */
  lemma {:induction false} FilterKeepsAll<T(!new)>(s: seq<T>, keep: T -> bool)
    requires forall x :: x in s ==> keep(x)
    ensures Filter(s, keep) == s
  {
    if |s| > 0 {
      assert forall x :: x in s[1..] ==> x in s;
      FilterKeepsAll(s[1..], keep);
    }
  }

  /** Filtering twice with the same predicate is filtering once. */
  lemma FilterIdempotent<T(!new)>(s: seq<T>, keep: T -> bool)
    ensures Filter(Filter(s, keep), keep) == Filter(s, keep)
  {
    FilterKeepsAll(Filter(s, keep), keep);
  }

  /** What a sequence gains over a prefix of a prefix is what it gains in two stages. */
  lemma SuffixSplit<T>(x: seq<T>, y: seq<T>, z: seq<T>)
    requires |x| <= |y| <= |z| && y[..|x|] == x && z[..|y|] == y
    ensures z[..|x|] == x
    ensures z[|x|..] == y[|x|..] + z[|y|..]
  {
  }

  /** Dropping the one rejected element between two runs of kept elements joins the runs. */
  lemma FilterDropsOne<T(!new)>(a: seq<T>, x: T, b: seq<T>, keep: T -> bool)
    requires forall y :: y in a ==> keep(y)
    requires forall y :: y in b ==> keep(y)
    requires !keep(x)
    ensures Filter(a + [x] + b, keep) == a + b
  {
    assert Filter([x], keep) == [] by {
      assert [x][1..] == [];
    }
    FilterConcat(a, [x], keep);
    FilterKeepsAll(a, keep);
    assert Filter(a + [x], keep) == a;
    FilterConcat(a + [x], b, keep);
    FilterKeepsAll(b, keep);
  }

  /** `f` applied to each element with its position, counted from `first` (the index-passing `map`). */
  function MapIndexed<T, U>(xs: seq<T>, first: nat, f: (nat, T) -> U): (ys: seq<U>)
    ensures |ys| == |xs|
    ensures forall i :: 0 <= i < |xs| ==> ys[i] == f(first + i, xs[i])
  {
    if |xs| == 0 then []
    else [f(first, xs[0])] + MapIndexed(xs[1..], first + 1, f)
  }
}

=== FILE: text.dfy ===
/** String joining and line splitting: `Array.prototype.join` and a reading of text line by line. */
module Text {

  function TotalLength(parts: seq<string>): nat
  {
    if |parts| == 0 then 0 else |parts[0]| + TotalLength(parts[1..])
  }

  /** The parts with `sep` between consecutive ones; `[]` joins to `""`, one part to itself. */
  function Join(parts: seq<string>, sep: string): (r: string)
    ensures |parts| == 0 ==> r == ""
    ensures |parts| == 1 ==> r == parts[0]
    ensures |parts| > 0 ==> parts[0] <= r
    ensures |r| == TotalLength(parts) + (if |parts| == 0 then 0 else (|parts| - 1) * |sep|)
  {
    if |parts| == 0 then ""
    else if |parts| == 1 then parts[0]
    else parts[0] + sep + Join(parts[1..], sep)
  }

  /** Where part `i` starts in `Join(parts, sep)`: after the first `i` parts and `i` separators. */
  function Offset(parts: seq<string>, sep: string, i: nat): nat
    requires i <= |parts|
  {
    TotalLength(parts[..i]) + i * |sep|
  }

  lemma OffsetShift(parts: seq<string>, sep: string, i: nat)
    requires 1 <= i <= |parts|
    ensures Offset(parts, sep, i) == |parts[0]| + |sep| + Offset(parts[1..], sep, i - 1)
  {
    assert parts[..i][1..] == parts[1..][..i - 1];
  }

  lemma SliceAfter(p: string, q: string, lo: nat, hi: nat)
    requires lo <= hi <= |q|
    ensures (p + q)[|p| + lo..|p| + hi] == q[lo..hi]
  {
  }

  /** The first part opens the join, and a separator follows it when more parts come. */
  lemma JoinFirst(parts: seq<string>, sep: string)
    requires |parts| > 0
    ensures Offset(parts, sep, 0) == 0 && |parts[0]| <= |Join(parts, sep)|
    ensures Join(parts, sep)[..|parts[0]|] == parts[0]
    ensures |parts| > 1 ==>
              && |parts[0]| + |sep| == Offset(parts, sep, 1) <= |Join(parts, sep)|
              && Join(parts, sep)[|parts[0]|..Offset(parts, sep, 1)] == sep
  {
    assert parts[..0] == [];
    if |parts| > 1 {
      assert Join(parts, sep) == parts[0] + sep + Join(parts[1..], sep);
      assert parts[..1] == [parts[0]] && parts[..1][1..] == [];
    }
  }

  /** Part `i` sits at its offset, and a separator fills the gap to the next part. */
  lemma {:induction false} JoinPart(parts: seq<string>, sep: string, i: nat)
    requires i < |parts|
    ensures Offset(parts, sep, i) + |parts[i]| <= |Join(parts, sep)|
    ensures Join(parts, sep)[Offset(parts, sep, i)..Offset(parts, sep, i) + |parts[i]|] == parts[i]
    ensures i + 1 < |parts| ==>
              && Offset(parts, sep, i) + |parts[i]| + |sep| == Offset(parts, sep, i + 1) <= |Join(parts, sep)|
              && Join(parts, sep)[Offset(parts, sep, i) + |parts[i]|..Offset(parts, sep, i + 1)] == sep
    decreases i
  {
    if i == 0 {
      JoinFirst(parts, sep);
    } else {
      var head := parts[0] + sep;
      var rest := Join(parts[1..], sep);
      assert Join(parts, sep) == head + rest;
      var o := Offset(parts[1..], sep, i - 1);
      JoinPart(parts[1..], sep, i - 1);
      OffsetShift(parts, sep, i);
      SliceAfter(head, rest, o, o + |parts[i]|);
      if i + 1 < |parts| {
        OffsetShift(parts, sep, i + 1);
        SliceAfter(head, rest, o + |parts[i]|, Offset(parts[1..], sep, i));
      }
    }
  }

  /**
   * The contents of a join: every part at its offset, and exactly `sep` between
   * consecutive parts; with the length from `Join`'s contract, nothing else.
   */
  lemma JoinContents(parts: seq<string>, sep: string)
    ensures forall i :: 0 <= i < |parts| ==>
              && Offset(parts, sep, i) + |parts[i]| <= |Join(parts, sep)|
              && Join(parts, sep)[Offset(parts, sep, i)..Offset(parts, sep, i) + |parts[i]|] == parts[i]
    ensures forall i {:trigger Offset(parts, sep, i)} :: 0 <= i < |parts| - 1 ==>
              && Offset(parts, sep, i) + |parts[i]| + |sep| == Offset(parts, sep, i + 1) <= |Join(parts, sep)|
              && Join(parts, sep)[Offset(parts, sep, i) + |parts[i]|..Offset(parts, sep, i + 1)] == sep
  {
    forall i | 0 <= i < |parts| {
      JoinPart(parts, sep, i);
    }
  }

  predicate NoNewline(s: string)
  {
    '\n' !in s
  }

  /** The lines of `s`: the pieces between newline characters (`s.split("\n")`). */
  function Lines(s: string): (r: seq<string>)
    ensures |r| >= 1
    ensures forall i :: 0 <= i < |r| ==> NoNewline(r[i])
  {
    if |s| == 0 then [""]
    else if s[0] == '\n' then [""] + Lines(s[1..])
    else
      var rest := Lines(s[1..]);
      [[s[0]] + rest[0]] + rest[1..]
  }

  /** Text without a newline is a single line. */
  lemma {:induction false} LinesOfLine(s: string)
    requires NoNewline(s)
    ensures Lines(s) == [s]
  {
    if |s| > 0 {
      assert s == [s[0]] + s[1..];
      LinesOfLine(s[1..]);
    }
  }

  /** A newline splits text into the lines before it followed by the lines after it. */
  lemma {:induction false} LinesConcat(a: string, b: string)
    ensures Lines(a + "\n" + b) == Lines(a) + Lines(b)
  {
    if |a| == 0 {
      assert a + "\n" + b == "\n" + b;
      assert ("\n" + b)[1..] == b;
    } else {
      assert (a + "\n" + b)[0] == a[0];
      assert (a + "\n" + b)[1..] == a[1..] + "\n" + b;
      LinesConcat(a[1..], b);
    }
  }

  /** A blank line between two texts: `a + "\n\n" + b` reads as the lines of `a`, `""`, the lines of `b`. */
  lemma BlankLineBetween(a: string, b: string)
    ensures Lines(a + "\n\n" + b) == Lines(a) + [""] + Lines(b)
  {
    assert a + "\n\n" + b == a + "\n" + ("" + "\n" + b);
    LinesConcat(a, "" + "\n" + b);
    LinesConcat("", b);
    assert "" + "\n" + b == "\n" + b;
  }

  /** Blocks of lines stacked with one blank line between consecutive blocks. */
  function Stack(blocks: seq<seq<string>>): seq<string>
    requires |blocks| >= 1
  {
    if |blocks| == 1 then blocks[0]
    else blocks[0] + [""] + Stack(blocks[1..])
  }
}

=== FILE: toasts.dfy ===
/**
 * The toast store: a process-wide list of active notifications and a list of
 * listeners, each of which receives a snapshot of the whole list after every change.
 * Time is not modelled: an auto-dismissal that has been scheduled but has not yet
 * fired is a pending `Timer`, and firing one is an explicit step.
 */
module Toasts {
  import opened Wrappers
  import opened Seqs

  /** The display time given to a toast whose options name none, in milliseconds. */
  const DefaultDuration: int := 3000

  /**
   * The severity of a toast. `Default` stands for the string `'default'`, which one
   * caller passes although the declared union lists only the other three.
   */
  datatype Variant = Success | Error | Info | Default

  /** What a caller asks for; `None` is an omitted (`undefined`) option. */
  datatype ToastOptions = ToastOptions(
    title: string,
    description: Option<string>,
    variant: Option<Variant>,
    duration: Option<int>)

  datatype Toast = Toast(id: string, title: string, description: Option<string>, variant: Variant, duration: int)

  /** A registered listener, identified as the source identifies it: by the callback itself. */
  type Listener = nat

  /** One call of a listener, with the list it was handed. */
  datatype Delivery = Delivery(listener: Listener, snapshot: seq<Toast>)

  /** A scheduled auto-dismissal of the toast `id`, due `delay` milliseconds after it was set. */
  datatype Timer = Timer(id: string, delay: int)

  /**
   * The store: the active toasts (oldest first), the listeners in registration
   * order, the pending auto-dismissals, and every listener call made so far.
   */
  datatype Store = Store(toasts: seq<Toast>, listeners: seq<Listener>, timers: seq<Timer>, log: seq<Delivery>)

  /** The result of adding a toast: the new store and the id handed back to the caller. */
  datatype Added = Added(store: Store, id: string)

  /** The store at start-up: nothing active, nobody listening. */
  function Initial(): (s: Store)
    ensures s.toasts == [] && s.listeners == [] && s.timers == [] && s.log == []
  {
    Store([], [], [], [])
  }

  predicate IsActive(toasts: seq<Toast>, id: string)
  {
    exists i :: 0 <= i < |toasts| && toasts[i].id == id
  }

  /** No two active toasts share an id. */
  predicate UniqueIds(toasts: seq<Toast>)
  {
    forall i, j :: 0 <= i < j < |toasts| ==> toasts[i].id != toasts[j].id
  }

  /** One delivery of `snapshot` to each listener, in registration order. */
  function Broadcast(listeners: seq<Listener>, snapshot: seq<Toast>): (ds: seq<Delivery>)
    ensures |ds| == |listeners|
    ensures forall i :: 0 <= i < |ds| ==> ds[i] == Delivery(listeners[i], snapshot)
  {
    if |listeners| == 0 then []
    else [Delivery(listeners[0], snapshot)] + Broadcast(listeners[1..], snapshot)
  }

  /** Calls every registered listener, in order, with a copy of the full current list. */
  function NotifyListeners(s: Store): (r: Store)
    ensures r.toasts == s.toasts && r.listeners == s.listeners && r.timers == s.timers
    ensures |r.log| == |s.log| + |s.listeners|
    ensures r.log[..|s.log|] == s.log
    ensures forall i :: 0 <= i < |s.listeners| ==> r.log[|s.log| + i] == Delivery(s.listeners[i], s.toasts)
  {
    s.(log := s.log + Broadcast(s.listeners, s.toasts))
  }

  /** The toast built for `id` from `options`: omitted duration and variant take their defaults. */
  function MakeToast(id: string, options: ToastOptions): (t: Toast)
    ensures t.id == id && t.title == options.title && t.description == options.description
    ensures t.duration == (if options.duration.Some? then options.duration.value else DefaultDuration)
    ensures t.variant == (if options.variant.Some? then options.variant.value else Info)
  {
    Toast(id, options.title, options.description, options.variant.GetOr(Info), options.duration.GetOr(DefaultDuration))
  }

  /**
   * Adds a toast with the given id (the source draws it at random) at the end of
   * the list, notifies the listeners, and schedules its removal when its duration
   * is positive.
   */
  function AddToast(s: Store, id: string, options: ToastOptions): (r: Added)
    ensures r.id == id
    ensures |r.store.toasts| == |s.toasts| + 1
    ensures r.store.toasts[..|s.toasts|] == s.toasts
    ensures r.store.toasts[|s.toasts|] == MakeToast(id, options)
    ensures r.store.listeners == s.listeners
    ensures MakeToast(id, options).duration > 0 ==> r.store.timers == s.timers + [Timer(id, MakeToast(id, options).duration)]
    ensures MakeToast(id, options).duration <= 0 ==> r.store.timers == s.timers
    ensures r.store.log == s.log + Broadcast(s.listeners, r.store.toasts)
  {
    var toast := MakeToast(id, options);
    var notified := NotifyListeners(s.(toasts := s.toasts + [toast]));
    if toast.duration > 0 then Added(notified.(timers := notified.timers + [Timer(id, toast.duration)]), id)
    else Added(notified, id)
  }

  function KeepOtherIds(id: string): Toast -> bool
  {
    (t: Toast) => t.id != id
  }

  /**
   * Removes every toast with the given id and notifies the listeners; an absent id
   * changes no toast. The remaining toasts keep their order, and exactly the toasts
   * carrying the id are gone (`Rejected` counts them).
   */
  function RemoveToast(s: Store, id: string): (r: Store)
    ensures forall t :: t in r.toasts <==> t in s.toasts && t.id != id
    ensures IsSubsequence(r.toasts, s.toasts)
    ensures |r.toasts| == |s.toasts| - Rejected(s.toasts, KeepOtherIds(id))
    ensures !IsActive(r.toasts, id)
    ensures r.listeners == s.listeners && r.timers == s.timers
    ensures r.log == s.log + Broadcast(s.listeners, r.toasts)
  {
    NotifyListeners(s.(toasts := Filter(s.toasts, KeepOtherIds(id))))
  }

  /** Registers a listener (again, if it already is one). */
  function Subscribe(s: Store, l: Listener): (r: Store)
    ensures |r.listeners| == |s.listeners| + 1 && r.listeners[|s.listeners|] == l
    ensures r.listeners[..|s.listeners|] == s.listeners
    ensures r.toasts == s.toasts && r.timers == s.timers && r.log == s.log
  {
    s.(listeners := s.listeners + [l])
  }

  function KeepOtherListeners(l: Listener): Listener -> bool
  {
    (m: Listener) => m != l
  }

  /**
   * The unsubscribe callback `Subscribe` hands back: drops every registration of `l`
   * and keeps the other registrations, duplicates included, in order.
   */
  function Unsubscribe(s: Store, l: Listener): (r: Store)
    ensures forall m :: m in r.listeners <==> m in s.listeners && m != l
    ensures IsSubsequence(r.listeners, s.listeners)
    ensures |r.listeners| == |s.listeners| - Rejected(s.listeners, KeepOtherListeners(l))
    ensures r.toasts == s.toasts && r.timers == s.timers && r.log == s.log
  {
    s.(listeners := Filter(s.listeners, KeepOtherListeners(l)))
  }

  /**
   * The pending auto-dismissal at index `k` fires: it is dropped, its toast id is
   * removed as `RemoveToast` removes it, and the listeners hear the new list.
   */
  function FireTimer(s: Store, k: nat): (r: Store)
    requires k < |s.timers|
    ensures !IsActive(r.toasts, s.timers[k].id)
    ensures |r.timers| == |s.timers| - 1
    ensures r.timers == s.timers[..k] + s.timers[k + 1..]
    ensures forall t :: t in r.toasts <==> t in s.toasts && t.id != s.timers[k].id
    ensures IsSubsequence(r.toasts, s.toasts)
    ensures |r.toasts| == |s.toasts| - Rejected(s.toasts, KeepOtherIds(s.timers[k].id))
    ensures r.listeners == s.listeners
    ensures r.log == s.log + Broadcast(s.listeners, r.toasts)
  {
    RemoveToast(s.(timers := s.timers[..k] + s.timers[k + 1..]), s.timers[k].id)
  }

  /** Adds several toasts in order, drawing their ids from `ids`. */
  function AddAll(s: Store, ids: seq<string>, options: seq<ToastOptions>): (r: Store)
    requires |ids| == |options|
    ensures |r.toasts| == |s.toasts| + |options|
    ensures r.toasts[..|s.toasts|] == s.toasts
    ensures forall i :: 0 <= i < |options| ==> r.toasts[|s.toasts| + i] == MakeToast(ids[i], options[i])
    ensures r.listeners == s.listeners
    decreases |options|
  {
    if |options| == 0 then s
    else
      var first := AddToast(s, ids[0], options[0]).store;
      var r := AddAll(first, ids[1..], options[1..]);
      assert r.toasts[..|s.toasts|] == first.toasts[..|s.toasts|];
      r
  }

  /**
   * Adding several toasts keeps the earlier timers and schedules at most one more per
   * toast, each with a positive delay and for one of the given ids.
   */
  lemma {:induction false} AddAllTimers(s: Store, ids: seq<string>, options: seq<ToastOptions>)
    requires |ids| == |options|
    ensures var r := AddAll(s, ids, options);
            |s.timers| <= |r.timers| <= |s.timers| + |options| && r.timers[..|s.timers|] == s.timers
    ensures var r := AddAll(s, ids, options);
            forall t :: t in r.timers[|s.timers|..] ==> t.delay > 0 && t.id in ids
    decreases |options|
  {
    if |options| > 0 {
      var first := AddToast(s, ids[0], options[0]).store;
      var r := AddAll(first, ids[1..], options[1..]);
      assert AddAll(s, ids, options) == r;
      AddAllTimers(first, ids[1..], options[1..]);
      SuffixSplit(s.timers, first.timers, r.timers);
      assert forall x :: x in ids[1..] ==> x in ids;
    }
  }

  lemma MulStep(n: nat, m: nat)
    requires n >= 1
    ensures n * m == m + (n - 1) * m && 0 <= (n - 1) * m
  {
  }

  /**
   * Adding several toasts keeps the earlier deliveries and notifies every listener,
   * and only the listeners, once per toast.
   */
  lemma {:induction false} AddAllLog(s: Store, ids: seq<string>, options: seq<ToastOptions>)
    requires |ids| == |options|
    ensures var r := AddAll(s, ids, options);
            |r.log| == |s.log| + |options| * |s.listeners| && r.log[..|s.log|] == s.log
    ensures var r := AddAll(s, ids, options);
            forall d :: d in r.log[|s.log|..] ==> d.listener in s.listeners
    decreases |options|
  {
    if |options| > 0 {
      var first := AddToast(s, ids[0], options[0]).store;
      var r := AddAll(first, ids[1..], options[1..]);
      assert AddAll(s, ids, options) == r;
      AddAllLog(first, ids[1..], options[1..]);
      MulStep(|options|, |s.listeners|);
      assert |options[1..]| == |options| - 1 && first.listeners == s.listeners;
      assert |first.log| <= |r.log| && r.log[..|first.log|] == first.log;
      assert first.log[..|s.log|] == s.log;
      SuffixSplit(s.log, first.log, r.log);
    }
  }

  /** One step of the store after start-up: an add, a remove, or a pending timer firing. */
  datatype Op = Add(id: string, options: ToastOptions) | Remove(id: string) | Fire(k: nat)

  /**
   * Applies one step. A step never changes the listeners, only appends to the log,
   * and every delivery it appends goes to a registered listener. `Fire` of an index
   * with no pending timer is no step at all.
   */
  function Apply(s: Store, op: Op): (r: Store)
    ensures r.listeners == s.listeners
    ensures |s.log| <= |r.log| && r.log[..|s.log|] == s.log
    ensures forall d :: d in r.log[|s.log|..] ==> d.listener in s.listeners
  {
    match op
    case Add(id, options) => AddToast(s, id, options).store
    case Remove(id) => RemoveToast(s, id)
    case Fire(k) => if k < |s.timers| then FireTimer(s, k) else s
  }

  /** Applies the steps in order. */
  function Run(s: Store, ops: seq<Op>): (r: Store)
    ensures r.listeners == s.listeners
    ensures |s.log| <= |r.log| && r.log[..|s.log|] == s.log
    ensures forall d :: d in r.log[|s.log|..] ==> d.listener in s.listeners
    decreases |ops|
  {
    if |ops| == 0 then s
    else
      var first := Apply(s, ops[0]);
      var r := Run(first, ops[1..]);
      SuffixSplit(s.log, first.log, r.log);
      r
  }

  // ---------------------------------------------------------------------------
  // Laws of the store.

  /** Removing an id that no active toast carries leaves the list as it was. */
  lemma RemoveAbsent(s: Store, id: string)
    requires !IsActive(s.toasts, id)
    ensures RemoveToast(s, id).toasts == s.toasts
  {
    forall t | t in s.toasts
      ensures KeepOtherIds(id)(t)
    {
      var i :| 0 <= i < |s.toasts| && s.toasts[i] == t;
    }
    FilterKeepsAll(s.toasts, KeepOtherIds(id));
  }

  /** Removing an id twice has the same effect on the list as removing it once. */
  lemma RemoveIdempotent(s: Store, id: string)
    ensures RemoveToast(RemoveToast(s, id), id).toasts == RemoveToast(s, id).toasts
  {
    RemoveAbsent(RemoveToast(s, id), id);
  }

  /** With unique ids, removing the id of one toast drops exactly that toast and keeps the rest in order. */
  lemma RemoveOne(s: Store, a: seq<Toast>, x: Toast, b: seq<Toast>)
    requires s.toasts == a + [x] + b
    requires UniqueIds(s.toasts)
    ensures RemoveToast(s, x.id).toasts == a + b
  {
    var keep := KeepOtherIds(x.id);
    forall t | t in a
      ensures keep(t)
    {
      var i :| 0 <= i < |a| && a[i] == t;
      assert s.toasts[i] == t && s.toasts[|a|] == x;
    }
    forall t | t in b
      ensures keep(t)
    {
      var i :| 0 <= i < |b| && b[i] == t;
      assert s.toasts[|a| + 1 + i] == t && s.toasts[|a|] == x;
    }
    FilterDropsOne(a, x, b, keep);
  }

  lemma DropKeepsUnique(a: seq<Toast>, x: Toast, b: seq<Toast>)
    requires UniqueIds(a + [x] + b)
    ensures UniqueIds(a + b)
  {
    var whole := a + [x] + b;
    var r := a + b;
    forall p, q | 0 <= p < q < |r|
      ensures r[p].id != r[q].id
    {
      var p' := if p < |a| then p else p + 1;
      var q' := if q < |a| then q else q + 1;
      assert r[p] == whole[p'] && r[q] == whole[q'];
    }
  }

  /**
   * With unique ids the list shrinks by one exactly when the id was active, is
   * otherwise unchanged, and its ids stay unique.
   */
  lemma RemoveCount(s: Store, id: string)
    requires UniqueIds(s.toasts)
    ensures |RemoveToast(s, id).toasts| == |s.toasts| - (if IsActive(s.toasts, id) then 1 else 0)
    ensures UniqueIds(RemoveToast(s, id).toasts)
  {
    if IsActive(s.toasts, id) {
      var i :| 0 <= i < |s.toasts| && s.toasts[i].id == id;
      var a, x, b := s.toasts[..i], s.toasts[i], s.toasts[i + 1..];
      assert s.toasts == a + [x] + b;
      RemoveOne(s, a, x, b);
      DropKeepsUnique(a, x, b);
    } else {
      RemoveAbsent(s, id);
    }
  }

  /** Adding a toast under an id that is not active keeps the ids unique. */
  lemma AddKeepsIdsUnique(s: Store, id: string, options: ToastOptions)
    requires UniqueIds(s.toasts)
    requires !IsActive(s.toasts, id)
    ensures UniqueIds(AddToast(s, id, options).store.toasts)
    ensures IsActive(AddToast(s, id, options).store.toasts, id)
  {
  }

  /** Adding a toast under a fresh id and then removing that id restores the list. */
  lemma AddThenRemove(s: Store, id: string, options: ToastOptions)
    requires !IsActive(s.toasts, id)
    ensures RemoveToast(AddToast(s, id, options).store, id).toasts == s.toasts
  {
    var added := AddToast(s, id, options).store;
    var keep := KeepOtherIds(id);
    assert added.toasts == s.toasts + [MakeToast(id, options)];
    FilterConcat(s.toasts, [MakeToast(id, options)], keep);
    RemoveAbsent(s, id);
    assert Filter([MakeToast(id, options)], keep) == [];
  }

  /**
   * Once a toast has been dismissed, its pending auto-dismissal fires without
   * changing the list, though the listeners are handed that unchanged list again.
   */
  lemma DismissThenExpire(s: Store, k: nat)
    requires k < |s.timers|
    ensures FireTimer(RemoveToast(s, s.timers[k].id), k).toasts == RemoveToast(s, s.timers[k].id).toasts
    ensures var dismissed := RemoveToast(s, s.timers[k].id);
            FireTimer(dismissed, k).log == dismissed.log + Broadcast(s.listeners, dismissed.toasts)
  {
    var dismissed := RemoveToast(s, s.timers[k].id);
    RemoveAbsent(dismissed.(timers := dismissed.timers[..k] + dismissed.timers[k + 1..]), s.timers[k].id);
  }

  /** Unsubscribing twice is the same as unsubscribing once. */
  lemma UnsubscribeIdempotent(s: Store, l: Listener)
    ensures Unsubscribe(Unsubscribe(s, l), l) == Unsubscribe(s, l)
  {
    FilterIdempotent(s.listeners, KeepOtherListeners(l));
  }

  /** Unsubscribing removes the listener and keeps every other registration in order. */
  lemma UnsubscribeKeepsOthers(s: Store, a: seq<Listener>, l: Listener, b: seq<Listener>)
    requires s.listeners == a + [l] + b
    requires l !in a && l !in b
    ensures Unsubscribe(s, l).listeners == a + b
  {
    var keep := KeepOtherListeners(l);
    FilterDropsOne(a, l, b, keep);
  }

  /** Subscribing a new listener and calling the returned unsubscribe restores the store. */
  lemma SubscribeThenUnsubscribe(s: Store, l: Listener)
    requires l !in s.listeners
    ensures Unsubscribe(Subscribe(s, l), l) == s
  {
    assert Subscribe(s, l).listeners == s.listeners + [l] + [];
    UnsubscribeKeepsOthers(Subscribe(s, l), s.listeners, l, []);
  }

  /** Unsubscribing drops every registration of the listener and keeps the other registrations. */
  lemma UnsubscribeDuplicates(s: Store, l: Listener, m: Listener)
    requires l != m
    requires s.listeners == [m, l, l, m]
    ensures Unsubscribe(s, m).listeners == [l, l]
  {
    var keep := KeepOtherListeners(m);
    assert Filter([m], keep) == [] by { assert [m][1..] == []; }
    assert Filter([l, m], keep) == [l] by { assert [l, m][1..] == [m]; }
    assert Filter([l, l, m], keep) == [l, l] by { assert [l, l, m][1..] == [l, m]; }
    assert [m, l, l, m][1..] == [l, l, m];
  }

  /** A broadcast reaches only registered listeners. */
  lemma BroadcastSkips(listeners: seq<Listener>, snapshot: seq<Toast>, l: Listener)
    requires l !in listeners
    ensures forall d :: d in Broadcast(listeners, snapshot) ==> d.listener != l
  {
  }

  /**
   * After unsubscribing, a listener receives nothing from the next add or remove,
   * nor from any later run of adds, removes and timer firings.
   */
  lemma UnsubscribedHearsNothing(s: Store, l: Listener, id: string, options: ToastOptions, ops: seq<Op>)
    ensures var u := Unsubscribe(s, l);
            forall d :: d in AddToast(u, id, options).store.log[|u.log|..] ==> d.listener != l
    ensures var u := Unsubscribe(s, l);
            forall d :: d in RemoveToast(u, id).log[|u.log|..] ==> d.listener != l
    ensures var u := Unsubscribe(s, l);
            forall d :: d in Run(u, ops).log[|u.log|..] ==> d.listener != l
  {
    var u := Unsubscribe(s, l);
    var added := AddToast(u, id, options).store;
    var removed := RemoveToast(u, id);
    assert added.log[|u.log|..] == Broadcast(u.listeners, added.toasts);
    assert removed.log[|u.log|..] == Broadcast(u.listeners, removed.toasts);
    BroadcastSkips(u.listeners, added.toasts, l);
    BroadcastSkips(u.listeners, removed.toasts, l);
  }
}

=== FILE: wrappers.dfy ===
/** Optional values: a TypeScript field that may be `undefined`. */
module Wrappers {

  datatype Option<+T> = None | Some(value: T) {

    /** The wrapped value, or `default` when absent (the `??` operator). */
    function GetOr(default: T): T
    {
      match this
      case Some(v) => v
      case None => default
    }
  }
}
